=== FILE: README.md ===
# frmMain launch and close logic

A model of the decision logic of wyUpdate's main window, `frmMain`
(trunk/frmMain/frmMain.cs). Below the WinForms plumbing, the window is a small
state machine over its fields.

- **Reading the flags.** `ProcessArguments` turns the command-line flags into
  the client data file and its format variant, the base and temporary
  directories, and the auto-update, quick-check, uninstall and silent modes.
- **The constructor's dispatch.** The constructor then loads the self-update
  data, if any, and picks exactly one way to go on:
  - the legacy RC1 shim, which replaces the client;
  - the Error frame, when the client data file fails to load;
  - resuming an auto-update;
  - resuming a self-update;
  - continuing after a relaunch;
  - planning the Checking step.
- **The first show.** `SetVisibleCore` starts the deferred work once, on the
  first show only.
- **The close guards.** `OnClosing` decides whether the user is asked before
  the window closes. `OnClosed` decides whether the temporary directory is
  removed.

The project is laid out as follows.

- `text.dfy` (module `Text`) holds the string helpers the window relies on:
  - a case-insensitive suffix test;
  - `Path.Combine` of a directory with a relative name.
- `model.dfy` (module `Model`) holds the data model:
  - the window's fields, grouped into four records (`Paths`, `Modes`,
    `Handoff`, `Progress`);
  - the events the window's side effects leave behind;
  - the answers of the file system (`Environment`);
  - the answers of the members defined in other files of the partial class
    (`Collaborators`).
- `arguments.dfy`, `startup.dfy` and `lifecycle.dfy` hold one specification
  function per step of the source, with lemmas stating what each step
  promises.
- `launch.dfy` composes those steps into one launch of a new window and
  proves the properties of a launch as a whole.
- `frm_main.dfy` is the window itself: class `MainForm`.
  - Its methods assign the fields step by step, as the C# does.
  - Each method is proved to leave exactly the fields, and to append exactly
    the events, that the matching specification function describes.
  - The events are recorded in the ghost field `trace`.

## Model

| member | source | states |
|---|---|---|
| ArgumentRules.ClientFileTypeOf | trunk/frmMain/frmMain.cs:344-354 | a `cdata` path ending in "iuc" (any case) is PreRC2, one ending in "iucz" is RC2, anything else is Final; each in both directions |
| ArgumentRules.IucAndIuczExclusive | trunk/frmMain/frmMain.cs:348-351 | no path ends in both "iucz" and "iuc", so the order of the two suffix tests does not matter |
| ArgumentRules.ProbeClientFile | trunk/frmMain/frmMain.cs:355-374 | without `cdata`: Final exactly when client.wyc exists; RC2 exactly when client.wyc is missing and iuclient.iucz exists; otherwise PreRC2, without checking that the file exists. The location is always the base directory combined with the variant's file name |
| ArgumentRules.ClientFileNamesHaveTheirType | trunk/frmMain/frmMain.cs:357-372 | client.wyc reads as Final, iuclient.iucz as RC2 and iuclient.iuc as PreRC2 |
| Text.CombineDropLast | trunk/frmMain/frmMain.cs:371 | dropping the last character of the combined RC2 path gives the combined PreRC2 path |
| ArgumentRules.ProbedTypeMatchesSuffix | trunk/frmMain/frmMain.cs:355-374 | the probed variant is the one the probed file name would give if it had been passed with `cdata` |
| ArgumentRules.ClientFileTypeAgreesWithName | trunk/frmMain/frmMain.cs:344-374 | whichever way the client data file was chosen, its variant agrees with its name |
| ArgumentRules.BaseDirectoryFor | trunk/frmMain/frmMain.cs:377-383 | the base directory is the executable's, or the `basedir` value when that names an existing directory |
| ArgumentRules.TempDirectoryFor | trunk/frmMain/frmMain.cs:385-395 | the temporary directory changes only for an existing `tempdir` or outside auto-update mode; it stays unset only in auto-update mode |
| ArgumentRules.DirectoryEvents | trunk/frmMain/frmMain.cs:390-395 | reading the directories creates at most the one fresh `wyup` temporary directory |
| ArgumentRules.ArgumentEvents | trunk/frmMain/frmMain.cs:319-417 | the auto-update set-up runs exactly when `autoupdate` is given without `supdf`. The fresh temporary directory is created exactly when there is no `supdf`, no existing `tempdir`, and auto-update mode is neither on already nor asked for |
| ArgumentRules.SelfUpdateFileOnly | trunk/frmMain/frmMain.cs:321-325 | with `supdf`, only the self-update file location is set; every other path, mode, hand-off and progress field is untouched |
| ArgumentRules.ArgumentsAppliedMeaning | trunk/frmMain/frmMain.cs:326-416 | without `supdf`: the client data file is set and its variant agrees with its name; `cdata` is taken verbatim; `basedir` and `tempdir` win only when they exist; a changed temporary directory means `tempdir` or no auto-update mode; each mode flag only turns its mode on; `noerr` needs `quickcheck`; silent needs uninstall and `s`; hand-off and progress are untouched |
| ArgumentRules.FlagsOfFreshWindow | trunk/frmMain/frmMain.cs:319-417 | for a new window, each mode is on exactly when its flags are present and `supdf` is absent: silent needs `uninstall` and `s`, `noerr` needs `quickcheck`, and `quickcheck` always starts the window hidden |
| ArgumentRules.TempDirectoryOfFreshWindow | trunk/frmMain/frmMain.cs:385-395 | for a new window, the three cases in full: an existing `tempdir` is used and nothing is created; otherwise, outside auto-update, a fresh directory is chosen and created; in auto-update mode the directory stays unset |
| Startup.ReplaceRC1ClientEndsAs | trunk/frmMain/frmMain.cs:122-147 | the RC1 shim with elevation denied shows the Error frame with the admin error, keeps `needElevation` and clears `selfUpdateFromRC1`. Otherwise, and only otherwise, it copies the new client location over the old one; `needElevation` ends cleared whether or not the copy succeeds, and a failed copy shows the client-file error. `needElevation` ends set exactly when elevation was denied; the paths, the modes and every other hand-off field stay as loaded. It causes no event but the copy and the Error frame: no client data file is opened and no start path runs |
| Startup.ContinueUpdateEndsAs | trunk/frmMain/frmMain.cs:214-278 | self-updating and continuing: a server file that fails to load shows the server error; a denied elevation shows the admin error; otherwise `needElevation` is cleared and the download starts. The download starts on no other branch, and `needElevation` is cleared on no other branch (it survives a server error). The paths, the modes and every other hand-off field are untouched. The server file is loaded first; after it come only the Error frame or the download |
| Startup.ChooseStartPathEndsAs | trunk/frmMain/frmMain.cs:193-280 | after the client data file loads: auto-update works in the product's folder under the application-data folder and shows the auto-update state error if that fails; self-updating and continuing go as above; otherwise Checking is planned unless uninstalling. Only the auto-update path changes a path (the temporary directory); `needElevation` is cleared only when the download starts; the modes and every other hand-off field are untouched |
| Startup.ChooseStartPathLoads | trunk/frmMain/frmMain.cs:193-278 | the auto-update folder is created exactly in auto-update mode, and its state is loaded exactly when that folder was created; the self-update server file (`LoadClientServerFile`) is loaded exactly outside auto-update mode when self-updating, and the server file (`LoadServerFile`) exactly outside auto-update mode when continuing and not self-updating; no other kind of event occurs |
| Startup.OpenClientEndsAs | trunk/frmMain/frmMain.cs:151-169 | a client data file that fails to open leaves every field as it was except the client-file error, and causes just two events, the open and the Error frame; otherwise the start path follows, with the hand-off and paths as in `ChooseStartPathEndsAs`. The first event opens the client data file with the reader of its variant (`OpenObsoleteClientFile` for PreRC2, `OpenClientFile` otherwise); every later event is one a start path causes, so the file is opened once |
| Startup.OpenClientLoads | trunk/frmMain/frmMain.cs:151-278 | each load of `ChooseStartPathLoads` happens exactly when, in addition, the client data file opened |
| Startup.OpenClientNeitherReadsNorCopies | trunk/frmMain/frmMain.cs:151-280 | from the open of the client data file on, the self-update data is not read again and no file is copied |
| Startup.Dispatched | trunk/frmMain/frmMain.cs:113-280 | the dispatch never changes an operating mode |
| Startup.DispatchFollowsOutcome | trunk/frmMain/frmMain.cs:113-280 | every dispatch ends in the one outcome of the decision table `OutcomeOf`. The Error frame is shown exactly on an error outcome, with that outcome's error; the download starts exactly on `Downloads`; Checking is planned exactly on `StartsChecking`; `needElevation` survives a denied elevation and is cleared on paths that go ahead; `selfUpdateFromRC1` is cleared only by a denied elevation; for RC1 self-update data, the new client is copied over the old one exactly when elevation was not denied, and then `needElevation` ends cleared. Relative to the fields after the self-update data is loaded: `needElevation` ends set exactly when it was set and neither the download started nor the RC1 copy went ahead; every other hand-off field is kept; the paths are kept except the temporary directory on the auto-update path |
| Startup.DispatchReadsSelfUpdateData | trunk/frmMain/frmMain.cs:116-147 | the self-update data is read, as the first event, exactly when a non-empty self-update file is named; the RC1 copy is made exactly when that data reads, is from RC1, and elevation was not denied |
| Startup.DispatchOpensClientFile | trunk/frmMain/frmMain.cs:116-156 | the client data file is opened, with the reader of its variant, exactly when no self-update file is named or its data reads and is not from RC1: a failed read or the RC1 shim opens nothing |
| Startup.DispatchLoads | trunk/frmMain/frmMain.cs:113-280 | over the whole dispatch, with the fields as the self-update data leaves them: the auto-update folder and state, the self-update server file and the server file are each loaded exactly when the client data file was opened, opened, and the matching start path is taken |
| Launch.Launched | trunk/frmMain/frmMain.cs:109-280 | a launched window keeps the modes the flags set, has not been shown yet, and still has its first-show work pending |
| Launch.SelfUpdateLaunchIsNeitherAutomaticNorUninstall | trunk/frmMain/frmMain.cs:321-325 | a `supdf` launch is never in auto-update, uninstall, silent or quick-check mode, and so never resumes an auto-update or waits for an uninstall |
| Launch.CheckingOnlyForPlainLaunch | trunk/frmMain/frmMain.cs:113-280 | Checking is planned exactly when the self-update data (if any) loaded and is not RC1, the client data file opened, and none of auto-update, self-updating, continuing or uninstalling applies; otherwise the first step stays Nothing |
| Launch.ClientLoadFailureShowsError | trunk/frmMain/frmMain.cs:160-168 | outside the RC1 shim, a client data file that fails to load shows the Error frame with the client-file error and plans no first step |
| Launch.AdminErrorNeedsElevatedRelaunch | trunk/frmMain/frmMain.cs:125-134 | the admin error arises only on a `supdf` launch whose self-update data asked for elevation while elevation is still needed; `needElevation` stays set |
| Launch.FirstShowAfterLaunch | trunk/frmMain/frmMain.cs:283-316 | the first show of a launched window shows the Uninstall frame exactly for an uninstall without `supdf`; it prepares Checking when that was planned; it starts the elevated relaunch (`StartSelfElevated`) after a replaced RC1 client, and never after the admin error |
| Launch.FailedRC1CopyStillRelaunches | trunk/frmMain/frmMain.cs:136-147 | a failed RC1 copy is attempted, clears `needElevation` and shows the Error frame, yet the first show still starts the elevated relaunch (`StartSelfElevated`), since only a denied elevation clears `selfUpdateFromRC1` |
| Launch.FailedResumeKeepsElevationHandoff | trunk/frmMain/frmMain.cs:214-260 | a self-updating or continuing launch whose data asked for elevation and whose server file fails shows the server error and keeps `needElevation`, so it closes without asking and keeps its temporary directory |
| Launch.SilentUninstallClosesWithoutPrompt | trunk/frmMain/frmMain.cs:409-411 | a silent uninstall closes without asking; it removes its temporary directory exactly when not in auto-update mode |
| Launch.AutoUpdateKeepsTempDirectory | trunk/frmMain/frmMain.cs:423-454 | an auto-update launch closes without asking and never removes its temporary directory |
| Lifecycle.FirstShowEvents | trunk/frmMain/frmMain.cs:294-308 | at most one piece of first-show work, by priority: the Uninstall frame when uninstalling, else the elevated relaunch for RC1, else the planned step when there is one |
| Lifecycle.Shown | trunk/frmMain/frmMain.cs:283-316 | any show clears the first-show flag. The first show starts the first-show work and stays hidden when asked to start hidden; later shows only set the visibility. No other field changes |
| Lifecycle.FirstShowRunsOnce | trunk/frmMain/frmMain.cs:285-287 | after any show, the next one starts nothing and only sets the visibility |
| Lifecycle.Closing | trunk/frmMain/frmMain.cs:419-439 | closing is cancelled, and `CancelUpdate` asks the user, exactly when none of `needElevation`, `willSelfUpdate`, `SelfUpdating`, silent, auto-update, cancelled or the WelcomeFinish frame holds |
| Lifecycle.Closed | trunk/frmMain/frmMain.cs:441-458 | the temporary directory is removed exactly when none of `needElevation`, `willSelfUpdate`, `SelfUpdating` or auto-update holds and the directory exists; nothing else is removed |
| Lifecycle.KeptTempDirectoryClosesWithoutPrompt | trunk/frmMain/frmMain.cs:423-444 | a window that keeps its temporary directory never asks before closing; a window that asks is one that removes its directory |
| Text.CaseInsensitive | trunk/frmMain/frmMain.cs:348-350 | the suffix test gives the same answer for a path and for its lower-cased form: the letter case of the path does not matter |
| Text.CaseInsensitiveSuffix | trunk/frmMain/frmMain.cs:348-350 | the suffix test gives the same answer for a suffix and for its lower-cased form |
| FrmMain.MainForm.constructor | trunk/frmMain/frmMain.cs:110-281 | a new window's fields and events are those of `Launch.Launched`: the flags read, then the dispatch |
| FrmMain.MainForm.ProcessArguments | trunk/frmMain/frmMain.cs:319-417 | the fields become `ArgumentsApplied` of the old fields, and the events `ArgumentEvents` are appended |
| FrmMain.MainForm.ReadClientFile | trunk/frmMain/frmMain.cs:344-374 | the probe's reassignments of `clientFileLoc` and `clientFileType` end where `ProbeClientFile` says |
| FrmMain.MainForm.SetupAutoupdateMode | trunk/frmMain/frmMain.cs:329-332 | turns auto-update mode on and records the set-up call |
| FrmMain.MainForm.ReadQuickCheck | trunk/frmMain/frmMain.cs:334-341 | the modes become those of `QuickCheckApplied`: hidden and quick-check on with `quickcheck`, no-error only beside it |
| FrmMain.MainForm.ReadModeFlags | trunk/frmMain/frmMain.cs:397-415 | the modes and server override become those of `ModeFlagsApplied` |
| FrmMain.MainForm.ReadDirectories | trunk/frmMain/frmMain.cs:377-395 | the base and temporary directories become those of `BaseDirectoryFor` and `TempDirectoryFor`; the fresh directory is created when chosen |
| FrmMain.MainForm.LoadAndDispatch | trunk/frmMain/frmMain.cs:113-280 | the fields and events after the constructor's try block and start path are those of `Startup.Dispatched` |
| FrmMain.MainForm.ApplySelfUpdateData | trunk/frmMain/frmMain.cs:116-118 | the fields become `WithSelfUpdateData` of the old fields |
| FrmMain.MainForm.ShowError | trunk/frmMain/frmMain.cs:160-168 | sets the error and appends the Error frame, as `Startup.Failed` |
| FrmMain.MainForm.LoadClientInformation | trunk/frmMain/frmMain.cs:151-169 | follows `Startup.OpenClient` |
| FrmMain.MainForm.ReplaceClient | trunk/frmMain/frmMain.cs:122-147 | follows `Startup.ReplaceRC1Client` |
| FrmMain.MainForm.StartPath | trunk/frmMain/frmMain.cs:193-280 | follows `Startup.ChooseStartPath` |
| FrmMain.MainForm.ResumeUpdate | trunk/frmMain/frmMain.cs:214-278 | follows `Startup.ContinueUpdate` for either server file |
| FrmMain.MainForm.SetVisibleCore | trunk/frmMain/frmMain.cs:283-316 | follows `Lifecycle.Shown` |
| FrmMain.MainForm.OnClosing | trunk/frmMain/frmMain.cs:419-439 | returns the cancel decision of `Lifecycle.Closing` and appends its events; no field changes |
| FrmMain.MainForm.OnClosed | trunk/frmMain/frmMain.cs:441-458 | appends the events of `Lifecycle.Closed`; no field changes |

Some behaviours of the code, each proved:

- **A `supdf` launch can still plan Checking.** It does so when its
  self-update data is neither RC1, self-updating nor continuing, the client
  data file opens and no uninstall is under way
  (`Launch.CheckingOnlyForPlainLaunch`).
- **A failed auto-update state is terminal.** When the auto-update folder
  cannot be created or its state cannot be loaded, the Error frame is shown
  and no first step is planned (lines 206-212; `Startup.ChooseStartPathEndsAs`,
  `Launch.CheckingOnlyForPlainLaunch`).
- **Auto-update is tested before self-updating** (lines 193 and 214). The
  order never matters for a launch: `supdf` excludes `autoupdate`
  (`Launch.SelfUpdateLaunchIsNeitherAutomaticNorUninstall`), and the
  self-update data is taken not to change the operating modes.
- **The admin error depends only on `needElevation` and
  `NeedElevationToUpdate()`.** `needElevation` is taken to be set only by
  the self-update data, so only a `supdf` launch can show the admin error
  (`Launch.AdminErrorNeedsElevatedRelaunch`).
- **A failed RC1 copy still starts the elevated relaunch.** The Error frame
  is shown, but `selfUpdateFromRC1` stays set, so the first show starts the
  elevated relaunch (`Launch.FailedRC1CopyStillRelaunches`).
- **A failed server file keeps the elevation hand-off.** The self-updating
  and continuing paths return at lines 228 and 260 before `needElevation` is
  touched. A window left that way closes without asking and keeps its
  temporary directory (`Launch.FailedResumeKeepsElevationHandoff`).

## Left out

- WinForms presentation is left out, as UI only:
  - the font, size and panel set-up (lines 88-107);
  - the button text and header and image styling (lines 171-191);
  - the window state and taskbar settings of a silent uninstall (lines 413-414);
  - the real visibility call behind `base.SetVisibleCore`, modelled as the `visible` field.
- The error message strings, `errorDetails`, `clientLang.SetVariables` and
  `clientLang.NewVersion` are left out; an error is modelled by its kind.
- The members defined in other files of the partial class are
  `LoadSelfUpdateData`, `LoadAutoUpdateData`, `LoadServerFile`,
  `LoadClientServerFile`, `OpenClientFile`, `OpenObsoleteClientFile`,
  `DownloadUpdate`, `PrepareStepOn`, `ShowFrame`, `CancelUpdate`,
  `StartSelfElevated`, `SetupAutoupdateMode`, `NeedElevationToUpdate` and the
  `SelfUpdating` property. They are not part of this model; each call is an
  event whose success or answer is an input (`Collaborators`).
  - `LoadSelfUpdateData` is taken to assign the ten fields of
    `SelfUpdateData` and nothing else. A failure part-way through is modelled
    as assigning none of them.
  - `LoadAutoUpdateData`, `LoadServerFile`, `LoadClientServerFile`,
    `OpenClientFile`, `OpenObsoleteClientFile` and `DownloadUpdate` are taken
    to assign none of the modelled fields; in particular none of them sets
    `startStep` or `needElevation`. A failure part-way through any of them is
    modelled as assigning nothing.
  - `SetupAutoupdateMode` is taken to do nothing but turn auto-update mode on.
  - `SelfUpdating` is taken to be the `selfUpdating` flag the self-update
    data sets.
  - The effect of `ShowFrame` on the displayed frame type is not modelled:
    `frameType` and `isCancelled` are left as they are and read by the close
    guard as given.
- The file system and the process are a snapshot (`Environment`):
  `File.Exists`, `Directory.Exists`, `Path.GetTempPath`,
  `AppDomain.CurrentDomain.BaseDirectory`, the application-data folder and
  the clock (`DateTime.Now` as a "ddMMssfff" string).
- Failures of `Directory.CreateDirectory` for the fresh temporary directory
  (line 394) are left out. That call sits outside the constructor's
  try/catch, so its failure would end the constructor with an exception.
- A failed `File.Copy` is modelled as caught by the constructor's catch
  block, which shows the client-file error; a half-written file is left out.
- The declaration of the `ClientFileType` enumeration is not part of this
  model, so its member order is assumed: a new window's variant is taken to
  be PreRC2, the first member. Every path through `ProcessArguments` without
  `supdf` assigns the variant anyway.
- `IsAdmin = VistaTools.IsUserAnAdmin()` (line 91) is not modelled as a
  field; whatever it feeds into `NeedElevationToUpdate()` is part of that
  call's answer, `Collaborators.needElevationToUpdate`.
- `OnClosing` and `OnClosed` are modelled without their final calls to
  `base.OnClosing` and `base.OnClosed` (lines 438 and 457), which raise the
  form's close events to other listeners.
- Text.EndsWithIgnoreCase: compares character by character and folds ASCII
  letters only. An `InvariantCultureIgnoreCase` comparison differs in two ways
  the model does not capture:
  - it ignores code points of zero weight, such as the soft hyphen U+00AD, so
    "a.iuc" followed by a soft hyphen is PreRC2 at line 348 but Final in the
    model;
  - it also folds non-ASCII letters, and any of those that fold onto "i",
    "u", "c" or "z" are not matched by the model.
- Text.Combine: models `Path.Combine` for a relative second argument only;
  an empty name gives the directory unchanged, as `Path.Combine` does.
  The fixed file names and the `wyup` folder name are relative. The product
  name combined with the application-data folder at line 197
  (`Startup.AutoUpdateDirectory`) comes from the client data file and is
  taken to be a valid relative name. Two cases are left out:
  - a rooted product name, for which `Path.Combine` returns the name alone;
  - a name with characters `Path.Combine` rejects. That throws at line 197,
    outside the try block that starts at line 199, so the constructor would
    end with an exception.
- `FileDownloader.EnableLazySSL`, the transport and the later update steps
  (Checking onwards) are left out.
- The fields are grouped into four record-valued fields of `MainForm` rather
  than one field each. A field is still updated in place by reassigning its
  record.

=== FILE: arguments.dfy ===
/** How `ProcessArguments` turns the command-line flags into the window's
    configuration: the client data file and its format variant, the base and
    temporary directories, and the uninstall, silent and quick-check flags. */
module ArgumentRules {
  import opened Text
  import opened Model

  const FinalClientName: Path := "client.wyc"
  const RC2ClientName: Path := "iuclient.iucz"
  const PreRC2ClientName: Path := "iuclient.iuc"

  /** The well-known client file name of each format variant. */
  function ClientFileName(t: ClientFileType): Path {
    match t
    case Final => FinalClientName
    case RC2 => RC2ClientName
    case PreRC2 => PreRC2ClientName
  }

  /** A path cannot end in both "iuc" and "iucz": the last letters differ. */
  lemma IucAndIuczExclusive(loc: Path)
    ensures EndsWithIgnoreCase(loc, "iucz") ==> !EndsWithIgnoreCase(loc, "iuc")
  {
    if EndsWithIgnoreCase(loc, "iucz") {
      var n := |loc|;
      assert LowerChar(loc[n - 1]) == 'z' by {
        assert LowerChar(loc[n - 4 + 3]) == LowerChar("iucz"[3]);
      }
      assert LowerChar(loc[n - 3 + 2]) != LowerChar("iuc"[2]);
    }
  }

  /** The format variant of an explicitly given client data file, read from
      the end of its path without regard to letter case. */
  function ClientFileTypeOf(loc: Path): (t: ClientFileType)
    ensures t == PreRC2 <==> EndsWithIgnoreCase(loc, "iuc")
    ensures t == RC2 <==> EndsWithIgnoreCase(loc, "iucz")
    ensures t == Final <==> !EndsWithIgnoreCase(loc, "iuc") && !EndsWithIgnoreCase(loc, "iucz")
  {
    IucAndIuczExclusive(loc);
    if EndsWithIgnoreCase(loc, "iuc") then PreRC2
    else if EndsWithIgnoreCase(loc, "iucz") then RC2
    else Final
  }

  /** A client data file location with its format variant. */
  datatype ClientFile = ClientFile(loc: Path, fileType: ClientFileType)

  /** The client data file found next to the executable when no `cdata` flag
      is given: the Final name if that file exists, else the RC2 name if that
      file exists, else the RC2 name without its last character (the PreRC2
      name), whether or not that file exists. */
  function ProbeClientFile(files: set<Path>, appDir: Path): (r: ClientFile)
    ensures r.fileType == Final <==> Combine(appDir, FinalClientName) in files
    ensures r.fileType == RC2 <==>
      Combine(appDir, FinalClientName) !in files && Combine(appDir, RC2ClientName) in files
    ensures r.fileType != PreRC2 ==> r.loc in files
    ensures r.loc == Combine(appDir, ClientFileName(r.fileType))
  {
    var final := Combine(appDir, FinalClientName);
    if final in files then ClientFile(final, Final)
    else
      var rc2 := Combine(appDir, RC2ClientName);
      if rc2 in files then ClientFile(rc2, RC2)
      else
        CombineDropLast(appDir, RC2ClientName);
        assert DropLast(RC2ClientName) == PreRC2ClientName;
        ClientFile(DropLast(rc2), PreRC2)
  }

  /** Each well-known client file name carries the suffix of its own variant. */
  lemma ClientFileNamesHaveTheirType()
    ensures ClientFileTypeOf(FinalClientName) == Final
    ensures ClientFileTypeOf(RC2ClientName) == RC2
    ensures ClientFileTypeOf(PreRC2ClientName) == PreRC2
  {
    assert LowerChar(FinalClientName[7]) != LowerChar("iuc"[0]);
    assert LowerChar(FinalClientName[6]) != LowerChar("iucz"[0]);
    assert EndsWithIgnoreCase(RC2ClientName, "iucz");
    assert EndsWithIgnoreCase(PreRC2ClientName, "iuc");
  }

  /** The variant of a combined path is that of its file name. */
  lemma ClientFileTypeOfCombine(dir: Path, name: Path)
    requires |name| >= 4
    ensures ClientFileTypeOf(Combine(dir, name)) == ClientFileTypeOf(name)
  {
    EndsWithCombine(dir, name, "iuc");
    EndsWithCombine(dir, name, "iucz");
  }

  /** Whichever file the probe settles on, its format variant is the one its
      name would give if it had been passed with `cdata`. */
  lemma ProbedTypeMatchesSuffix(files: set<Path>, appDir: Path)
    ensures ProbeClientFile(files, appDir).fileType == ClientFileTypeOf(ProbeClientFile(files, appDir).loc)
  {
    var r := ProbeClientFile(files, appDir);
    ClientFileTypeOfCombine(appDir, ClientFileName(r.fileType));
    ClientFileNamesHaveTheirType();
  }

  /** The client data file and variant that the flags and the file system select. */
  function ClientFileFor(commands: Arguments, env: Environment): ClientFile {
    if "cdata" in commands then ClientFile(commands["cdata"], ClientFileTypeOf(commands["cdata"]))
    else ProbeClientFile(env.files, env.appBaseDirectory)
  }

  /** However the client data file was found, its variant is the one its name gives. */
  lemma ClientFileTypeAgreesWithName(commands: Arguments, env: Environment)
    ensures ClientFileFor(commands, env).fileType == ClientFileTypeOf(ClientFileFor(commands, env).loc)
  {
    if "cdata" !in commands {
      ProbedTypeMatchesSuffix(env.files, env.appBaseDirectory);
    }
  }

  /** A flag whose value names an existing directory. */
  predicate NamesDirectory(commands: Arguments, env: Environment, flag: string) {
    flag in commands && commands[flag] in env.directories
  }

  /** The per-run temporary directory the window creates for itself. */
  function FreshTempDirectory(env: Environment): Path {
    Combine(env.tempPath, "wyup" + env.timeStamp)
  }

  // The steps of `ProcessArguments` when `supdf` is absent, in the order
  // the method takes them.

  /** `autoupdate`: the auto-update set-up turns auto-update mode on. */
  function AutoUpdateSetUp(s: FormState): FormState {
    s.(modes := s.modes.(isAutoUpdateMode := true))
  }

  /** `quickcheck` starts the window hidden in quick-check mode; `noerr`
      beside it suppresses errors. */
  function QuickCheckApplied(s: FormState, commands: Arguments): FormState {
    if "quickcheck" in commands then
      var m := s.modes;
      s.(modes := Modes(m.isAutoUpdateMode, true, true, m.quickCheckNoErr || "noerr" in commands, m.uninstalling, m.isSilent))
    else s
  }

  /** The client data file: the one `cdata` names, typed by its name, or
      the one the probe finds. */
  function ClientFileApplied(s: FormState, commands: Arguments, env: Environment): FormState {
    var client := ClientFileFor(commands, env);
    var p := s.paths;
    s.(paths := Paths(p.selfUpdateFileLoc, Some(client.loc), client.fileType, p.baseDirectory, p.tempDirectory, p.serverOverwrite))
  }

  /** The base directory is the executable's unless `basedir` names an
      existing directory. */
  function BaseDirectoryFor(commands: Arguments, env: Environment): (dir: Path)
    ensures dir == env.appBaseDirectory || (NamesDirectory(commands, env, "basedir") && dir == commands["basedir"])
  {
    if NamesDirectory(commands, env, "basedir") then commands["basedir"] else env.appBaseDirectory
  }

  /** The temporary directory is the one `tempdir` names if it exists, else
      a fresh one outside auto-update mode, else it stays as it was. */
  function TempDirectoryFor(commands: Arguments, env: Environment, auto: bool, current: Option<Path>): (dir: Option<Path>)
    ensures dir != current ==> NamesDirectory(commands, env, "tempdir") || !auto
    ensures dir.None? ==> current.None? && auto
  {
    if NamesDirectory(commands, env, "tempdir") then Some(commands["tempdir"])
    else if !auto then Some(FreshTempDirectory(env))
    else current
  }

  /** The fresh temporary directory is created exactly when it is chosen. */
  function DirectoryEvents(commands: Arguments, env: Environment, auto: bool): (e: seq<Event>)
    ensures e == [] || e == [CreateDirectory(FreshTempDirectory(env))]
  {
    if !NamesDirectory(commands, env, "tempdir") && !auto then [CreateDirectory(FreshTempDirectory(env))] else []
  }

  function DirectoriesApplied(s: FormState, commands: Arguments, env: Environment): FormState {
    var p := s.paths;
    s.(paths := Paths(p.selfUpdateFileLoc, p.clientFileLoc, p.clientFileType, Some(BaseDirectoryFor(commands, env)),
                      TempDirectoryFor(commands, env, s.modes.isAutoUpdateMode, p.tempDirectory), p.serverOverwrite))
  }

  /** `uninstall`, `server`, and `s`, which makes an uninstall silent. */
  function ModeFlagsApplied(s: FormState, commands: Arguments): FormState {
    var m := s.modes;
    var uninstalling := m.uninstalling || "uninstall" in commands;
    var p := s.paths;
    FormState(
      Paths(p.selfUpdateFileLoc, p.clientFileLoc, p.clientFileType, p.baseDirectory, p.tempDirectory,
            if "server" in commands then Some(commands["server"]) else p.serverOverwrite),
      Modes(m.isAutoUpdateMode, m.startFormHidden, m.quickCheck, m.quickCheckNoErr, uninstalling,
            m.isSilent || (uninstalling && "s" in commands)),
      s.handoff,
      s.progress)
  }

  /** The fields after `autoupdate` has been read. */
  function AutoUpdateApplied(s: FormState, commands: Arguments): FormState {
    if "autoupdate" in commands then AutoUpdateSetUp(s) else s
  }

  /** The fields after `ProcessArguments`: with `supdf` only the
      self-update file location is recorded; otherwise every other flag is
      read, step by step. */
  function ArgumentsApplied(s: FormState, commands: Arguments, env: Environment): FormState {
    if "supdf" in commands then s.(paths := s.paths.(selfUpdateFileLoc := Some(commands["supdf"])))
    else
      var afterQuickCheck := QuickCheckApplied(AutoUpdateApplied(s, commands), commands);
      ModeFlagsApplied(DirectoriesApplied(ClientFileApplied(afterQuickCheck, commands, env), commands, env), commands)
  }

  /** The calls `ProcessArguments` makes: none with `supdf`; otherwise the
      auto-update set-up for `autoupdate`, and the creation of a fresh
      temporary directory when no existing one is named and auto-update mode
      is off. */
  function ArgumentEvents(s: FormState, commands: Arguments, env: Environment): (e: seq<Event>)
    ensures SetupAutoupdateMode in e <==> "supdf" !in commands && "autoupdate" in commands
    ensures CreateDirectory(FreshTempDirectory(env)) in e <==>
      && "supdf" !in commands
      && !NamesDirectory(commands, env, "tempdir")
      && !s.modes.isAutoUpdateMode && "autoupdate" !in commands
  {
    if "supdf" in commands then []
    else
      (if "autoupdate" in commands then [SetupAutoupdateMode] else [])
      + DirectoryEvents(commands, env, s.modes.isAutoUpdateMode || "autoupdate" in commands)
  }

  /** With `supdf`, only the self-update file location is recorded: the
      client data file, the directories and every mode stay as they were. */
  lemma SelfUpdateFileOnly(s: FormState, commands: Arguments, env: Environment)
    requires "supdf" in commands
    ensures var r := ArgumentsApplied(s, commands, env);
      && r.paths.selfUpdateFileLoc == Some(commands["supdf"])
      && r.paths.(selfUpdateFileLoc := s.paths.selfUpdateFileLoc) == s.paths
      && r.modes == s.modes && r.handoff == s.handoff && r.progress == s.progress
  {
  }

  /** Without `supdf`: the client data file is found and typed by its name,
      `basedir` and `tempdir` replace the defaults only when they name an
      existing directory, a flag only ever turns a mode on, and the silent
      and no-error modes need their companion flags. */
  lemma ArgumentsAppliedMeaning(s: FormState, commands: Arguments, env: Environment)
    requires "supdf" !in commands
    ensures var r := ArgumentsApplied(s, commands, env);
      && r.paths.selfUpdateFileLoc == s.paths.selfUpdateFileLoc
      && r.paths.clientFileLoc.Some?
      && r.paths.clientFileType == ClientFileTypeOf(r.paths.clientFileLoc.value)
      && ("cdata" in commands ==> r.paths.clientFileLoc == Some(commands["cdata"]))
      && r.paths.baseDirectory == Some(if NamesDirectory(commands, env, "basedir") then commands["basedir"] else env.appBaseDirectory)
      && (NamesDirectory(commands, env, "tempdir") ==> r.paths.tempDirectory == Some(commands["tempdir"]))
      && (r.paths.tempDirectory != s.paths.tempDirectory ==> NamesDirectory(commands, env, "tempdir") || !r.modes.isAutoUpdateMode)
      && (r.modes.isAutoUpdateMode <==> s.modes.isAutoUpdateMode || "autoupdate" in commands)
      && (r.modes.uninstalling <==> s.modes.uninstalling || "uninstall" in commands)
      && (r.modes.startFormHidden <==> s.modes.startFormHidden || "quickcheck" in commands)
      && (r.modes.quickCheck <==> s.modes.quickCheck || "quickcheck" in commands)
      && (r.modes.quickCheckNoErr <==> s.modes.quickCheckNoErr || ("quickcheck" in commands && "noerr" in commands))
      && (r.modes.isSilent <==> s.modes.isSilent || (r.modes.uninstalling && "s" in commands))
      && r.handoff == s.handoff && r.progress == s.progress
  {
    ClientFileTypeAgreesWithName(commands, env);
  }

  /** From a new window: what each flag turns on, and what it needs beside it. */
  lemma FlagsOfFreshWindow(commands: Arguments, env: Environment)
    ensures var r := ArgumentsApplied(Initial(), commands, env);
      && (r.modes.isSilent <==> "supdf" !in commands && "uninstall" in commands && "s" in commands)
      && (r.modes.uninstalling <==> "supdf" !in commands && "uninstall" in commands)
      && (r.modes.quickCheckNoErr <==> "supdf" !in commands && "quickcheck" in commands && "noerr" in commands)
      && (r.modes.startFormHidden <==> "supdf" !in commands && "quickcheck" in commands)
      && (r.modes.isAutoUpdateMode <==> "supdf" !in commands && "autoupdate" in commands)
      && (r.paths.serverOverwrite.Some? <==> "supdf" !in commands && "server" in commands)
      && r.handoff == Initial().handoff && r.progress == Initial().progress
  {
  }

  /** From a new window: the temporary directory is the one named by `tempdir`
      when it exists, else a fresh one created unless in auto-update mode. */
  lemma TempDirectoryOfFreshWindow(commands: Arguments, env: Environment)
    requires "supdf" !in commands
    ensures var r := ArgumentsApplied(Initial(), commands, env); var e := ArgumentEvents(Initial(), commands, env);
      && (NamesDirectory(commands, env, "tempdir") ==>
            r.paths.tempDirectory == Some(commands["tempdir"]) && e == (if "autoupdate" in commands then [SetupAutoupdateMode] else []))
      && (!NamesDirectory(commands, env, "tempdir") && "autoupdate" !in commands ==>
            r.paths.tempDirectory == Some(FreshTempDirectory(env)) && e == [CreateDirectory(FreshTempDirectory(env))])
      && (!NamesDirectory(commands, env, "tempdir") && "autoupdate" in commands ==>
            r.paths.tempDirectory == None && e == [SetupAutoupdateMode])
  {
  }
}

=== FILE: frm_main.dfy ===
/** The updater window itself: its fields, assigned step by step by the
    constructor, the flag reader, the first show and the two close
    handlers. Each method is proved to leave the fields, and to cause the
    events, that the functions of the other modules describe. */
module FrmMain {
  import opened Text
  import opened Model
  import opened ArgumentRules
  import opened Startup
  import opened Lifecycle
  import opened Launch

  class MainForm {
    /** The window's fields, grouped as the records of the model: file
        locations, operating modes, the hand-off between runs, progress. */
    var paths: Paths
    var modes: Modes
    var handoff: Handoff
    var progress: Progress

    /** The side effects the window has caused, in order. */
    ghost var trace: seq<Event>

    /** The fields, as one value. */
    function State(): FormState
      reads this
    {
      FormState(paths, modes, handoff, progress)
    }

    /** A new window: read the flags, then dispatch on what they and the
        self-update data ask for. */
    constructor (commands: Arguments, env: Environment, c: Collaborators)
      ensures State() == Launched(commands, env, c).state
      ensures trace == Launched(commands, env, c).events
    {
      paths := Paths(None, None, PreRC2, None, None, None);
      modes := Modes(false, false, false, false, false, false);
      handoff := Handoff(false, false, false, false, false, None, None);
      progress := Progress(None, Nothing, true, false, false, OtherFrameType);
      trace := [];
      new;
      assert State() == Initial();
      ProcessArguments(commands, env);
      assert trace == ArgumentEvents(Initial(), commands, env);
      LoadAndDispatch(env, c);
    }

    /** The auto-update set-up, as far as this window relies on it:
        auto-update mode is on. */
    method SetupAutoupdateMode()
      modifies this
      ensures State() == AutoUpdateSetUp(old(State()))
      ensures trace == old(trace) + [Event.SetupAutoupdateMode]
    {
      modes := modes.(isAutoUpdateMode := true);
      trace := trace + [Event.SetupAutoupdateMode];
    }

    /** Interpret the command-line flags. */
    method ProcessArguments(commands: Arguments, env: Environment)
      modifies this
      ensures State() == ArgumentsApplied(old(State()), commands, env)
      ensures trace == old(trace) + ArgumentEvents(old(State()), commands, env)
    {
      if "supdf" in commands {
        paths := paths.(selfUpdateFileLoc := Some(commands["supdf"]));
        return;
      }
      if "autoupdate" in commands {
        SetupAutoupdateMode();
      }
      ReadQuickCheck(commands);
      ReadClientFile(commands, env);
      ReadDirectories(commands, env);
      ReadModeFlags(commands);
    }

    /** `quickcheck` and `noerr`. */
    method ReadQuickCheck(commands: Arguments)
      modifies this
      ensures State() == QuickCheckApplied(old(State()), commands)
      ensures trace == old(trace)
    {
      if "quickcheck" in commands {
        modes := modes.(startFormHidden := true);
        modes := modes.(quickCheck := true);
        if "noerr" in commands {
          modes := modes.(quickCheckNoErr := true);
        }
      }
    }

    /** The client data file: `cdata`, typed by its suffix, or the first of
        the well-known names that exists next to the executable. */
    method ReadClientFile(commands: Arguments, env: Environment)
      modifies this
      ensures State() == ClientFileApplied(old(State()), commands, env)
      ensures trace == old(trace)
    {
      if "cdata" in commands {
        var loc := commands["cdata"];
        paths := paths.(clientFileLoc := Some(loc));
        if EndsWithIgnoreCase(loc, "iuc") {
          paths := paths.(clientFileType := PreRC2);
        } else if EndsWithIgnoreCase(loc, "iucz") {
          paths := paths.(clientFileType := RC2);
        } else {
          paths := paths.(clientFileType := Final);
        }
      } else {
        var loc := Combine(env.appBaseDirectory, FinalClientName);
        paths := paths.(clientFileLoc := Some(loc), clientFileType := Final);
        if loc !in env.files {
          loc := Combine(env.appBaseDirectory, RC2ClientName);
          paths := paths.(clientFileLoc := Some(loc), clientFileType := RC2);
        }
        if loc !in env.files {
          loc := loc[..|loc| - 1];
          paths := paths.(clientFileLoc := Some(loc), clientFileType := PreRC2);
        }
      }
    }

    /** `basedir` and `tempdir`, and the fresh temporary directory. */
    method ReadDirectories(commands: Arguments, env: Environment)
      modifies this
      ensures State() == DirectoriesApplied(old(State()), commands, env)
      ensures trace == old(trace) + DirectoryEvents(commands, env, modes.isAutoUpdateMode)
    {
      paths := paths.(baseDirectory := Some(env.appBaseDirectory));
      if "basedir" in commands && commands["basedir"] in env.directories {
        paths := paths.(baseDirectory := Some(commands["basedir"]));
      }
      if "tempdir" in commands && commands["tempdir"] in env.directories {
        paths := paths.(tempDirectory := Some(commands["tempdir"]));
      } else if !modes.isAutoUpdateMode {
        var dir := FreshTempDirectory(env);
        paths := paths.(tempDirectory := Some(dir));
        trace := trace + [CreateDirectory(dir)];
      }
    }

    /** `uninstall`, `server` and `s`. */
    method ReadModeFlags(commands: Arguments)
      modifies this
      ensures State() == ModeFlagsApplied(old(State()), commands)
      ensures trace == old(trace)
    {
      if "uninstall" in commands {
        modes := modes.(uninstalling := true);
      }
      if "server" in commands {
        paths := paths.(serverOverwrite := Some(commands["server"]));
      }
      if modes.uninstalling && "s" in commands {
        modes := modes.(isSilent := true);
      }
    }

    /** Record an error and show the Error frame. */
    method ShowError(kind: ErrorKind)
      modifies this
      ensures State() == Failed(old(State()), kind).state
      ensures trace == old(trace) + [ShowFrame(Error)]
    {
      progress := progress.(error := Some(kind));
      trace := trace + [ShowFrame(Error)];
    }

    /** Read the self-update data into the fields. */
    method ApplySelfUpdateData(d: SelfUpdateData)
      modifies this
      ensures State() == WithSelfUpdateData(old(State()), d)
      ensures trace == old(trace)
    {
      paths := Paths(paths.selfUpdateFileLoc, d.clientFileLoc, d.clientFileType, d.baseDirectory, d.tempDirectory,
                     paths.serverOverwrite);
      handoff := Handoff(d.selfUpdating, d.continuingUpdate, d.needElevation, handoff.willSelfUpdate, d.selfUpdateFromRC1,
                         Some(d.newClientLocation), Some(d.oldClientLocation));
    }

    /** The constructor's work after the flags are read. */
    method LoadAndDispatch(env: Environment, c: Collaborators)
      modifies this
      ensures State() == Dispatched(old(State()), env, c).state
      ensures trace == old(trace) + Dispatched(old(State()), env, c).events
    {
      if paths.selfUpdateFileLoc.Some? && paths.selfUpdateFileLoc.value != "" {
        var read := LoadSelfUpdateData(paths.selfUpdateFileLoc.value);
        trace := trace + [read];
        if c.selfUpdateData.None? {
          ShowError(ClientFileFailed);
          return;
        }
        ApplySelfUpdateData(c.selfUpdateData.value);
        if handoff.selfUpdateFromRC1 {
          ReplaceClient(c);
          return;
        }
        LoadClientInformation(env, c);
        return;
      }
      LoadClientInformation(env, c);
    }

    /** The RC1 shim: refuse a denied elevation, else copy the new client
        over the old one. */
    method ReplaceClient(c: Collaborators)
      modifies this
      ensures State() == ReplaceRC1Client(old(State()), c).state
      ensures trace == old(trace) + ReplaceRC1Client(old(State()), c).events
    {
      if handoff.needElevation && c.needElevationToUpdate {
        handoff := handoff.(selfUpdateFromRC1 := false);
        ShowError(AdminError);
      } else {
        handoff := handoff.(needElevation := false);
        var copy := CopyFile(handoff.newClientLocation, handoff.oldClientLocation);
        trace := trace + [copy];
        if !c.copySucceeds {
          ShowError(ClientFileFailed);
        }
      }
    }

    /** Open the client data file, then start the path the fields ask for. */
    method LoadClientInformation(env: Environment, c: Collaborators)
      modifies this
      ensures State() == OpenClient(old(State()), env, c).state
      ensures trace == old(trace) + OpenClient(old(State()), env, c).events
    {
      var openEvent :=
        if paths.clientFileType == PreRC2 then OpenObsoleteClientFile(paths.clientFileLoc)
        else OpenClientFile(paths.clientFileLoc);
      trace := trace + [openEvent];
      if !c.clientFileOpens {
        ShowError(ClientFileFailed);
        return;
      }
      StartPath(env, c);
    }

    /** After the client data file has loaded: resume the auto-update, the
        self-update or the continued update, or plan the Checking step. */
    method StartPath(env: Environment, c: Collaborators)
      modifies this
      ensures State() == ChooseStartPath(old(State()), env, c).state
      ensures trace == old(trace) + ChooseStartPath(old(State()), env, c).events
    {
      if modes.isAutoUpdateMode {
        var dir := Combine(env.appDataDirectory, c.productName);
        paths := paths.(tempDirectory := Some(dir));
        trace := trace + [CreateDirectory(dir)];
        if !c.autoUpdateDirectoryCreated {
          ShowError(AutoUpdateStateFailed);
          return;
        }
        trace := trace + [LoadAutoUpdateData];
        if !c.autoUpdateStateLoads {
          ShowError(AutoUpdateStateFailed);
        }
      } else if handoff.selfUpdating {
        ResumeUpdate(c, LoadClientServerFile);
      } else if handoff.continuingUpdate {
        ResumeUpdate(c, LoadServerFile);
      } else if !modes.uninstalling {
        progress := progress.(startStep := Checking);
      }
    }

    /** Load the server file, then refuse a denied elevation or start the
        download; shared by the self-updating and continuing paths. */
    method ResumeUpdate(c: Collaborators, load: Event)
      modifies this
      ensures State() == ContinueUpdate(old(State()), c, load).state
      ensures trace == old(trace) + ContinueUpdate(old(State()), c, load).events
    {
      trace := trace + [load];
      if !c.serverFileLoads {
        ShowError(ServerError);
        return;
      }
      if handoff.needElevation && c.needElevationToUpdate {
        ShowError(AdminError);
      } else {
        handoff := handoff.(needElevation := false);
        trace := trace + [DownloadUpdate];
      }
    }

    /** Show or hide the window; the first call also starts the first-show work. */
    method SetVisibleCore(value: bool)
      modifies this
      ensures State() == Shown(old(State()), value).state
      ensures trace == old(trace) + Shown(old(State()), value).events
    {
      if progress.isApplicationRun {
        progress := progress.(isApplicationRun := false);
        progress := progress.(visible := if modes.startFormHidden then false else value);
        if modes.uninstalling {
          trace := trace + [ShowFrame(Uninstall)];
        } else if handoff.selfUpdateFromRC1 {
          trace := trace + [StartSelfElevated];
        } else if progress.startStep != Nothing {
          trace := trace + [PrepareStepOn(progress.startStep)];
        }
        return;
      }
      progress := progress.(visible := value);
    }

    /** A request to close: returns whether closing is cancelled. */
    method OnClosing() returns (cancel: bool)
      modifies this`trace
      ensures cancel == Closing(State()).cancel
      ensures trace == old(trace) + Closing(State()).events
    {
      if handoff.needElevation || handoff.willSelfUpdate || handoff.selfUpdating || modes.isSilent
         || modes.isAutoUpdateMode || progress.isCancelled || progress.frameType == WelcomeFinish {
        cancel := false;
      } else {
        cancel := true;
        trace := trace + [CancelUpdate];
      }
    }

    /** The window has closed: remove the temporary directory unless the
        update lives on in another process or a later run. */
    method OnClosed(directories: set<Path>)
      modifies this`trace
      ensures trace == old(trace) + Closed(State(), directories)
    {
      if !(handoff.needElevation || handoff.willSelfUpdate || handoff.selfUpdating || modes.isAutoUpdateMode) {
        if paths.tempDirectory.Some? && paths.tempDirectory.value in directories {
          trace := trace + [DeleteDirectory(paths.tempDirectory.value)];
        }
      }
    }
  }
}

=== FILE: launch.dfy ===
/** A whole launch of the updater window, from a new window: the flags are
    read, the constructor dispatches, and the first show runs its one-shot
    work. The lemmas here state what a launch as a whole promises. */
module Launch {
  import opened Text
  import opened Model
  import opened ArgumentRules
  import opened Startup
  import opened Lifecycle

  /** The fields after the command line has been read into a new window. */
  function Configured(commands: Arguments, env: Environment): FormState {
    ArgumentsApplied(Initial(), commands, env)
  }

  /** The fields a new window is left with by its constructor, and the
      events the constructor causes: those of reading the flags, then
      those of the dispatch. */
  function Launched(commands: Arguments, env: Environment, c: Collaborators): (r: Step)
    ensures r.state.modes == Configured(commands, env).modes
    ensures r.state.progress.isApplicationRun && !r.state.progress.visible
  {
    var d := Dispatched(Configured(commands, env), env, c);
    DispatchFollowsOutcome(Configured(commands, env), env, c);
    Step(d.state, ArgumentEvents(Initial(), commands, env) + d.events)
  }

  /** How the launch ends. */
  function LaunchOutcome(commands: Arguments, env: Environment, c: Collaborators): Outcome {
    OutcomeOf(Configured(commands, env), c)
  }

  /** A launch that continues a self-update (`supdf`) never runs in
      auto-update mode, never uninstalls and is never silent, and so never
      resumes an auto-update or waits for the uninstall. */
  lemma SelfUpdateLaunchIsNeitherAutomaticNorUninstall(commands: Arguments, env: Environment, c: Collaborators)
    requires "supdf" in commands
    ensures var m := Launched(commands, env, c).state.modes;
      !m.isAutoUpdateMode && !m.uninstalling && !m.isSilent && !m.quickCheck
    ensures LaunchOutcome(commands, env, c) != ResumesAutoUpdate
    ensures LaunchOutcome(commands, env, c) != AwaitsUninstall
  {
  }

  /** The first step is planned as Checking exactly when the client data
      file loaded and none of the RC1 shim, auto-update, self-updating,
      continuing or uninstalling applies; on every other launch, the failed
      ones included, it stays `Nothing`. */
  lemma CheckingOnlyForPlainLaunch(commands: Arguments, env: Environment, c: Collaborators)
    ensures var s := Configured(commands, env); var t := Loaded(s, c);
      Launched(commands, env, c).state.progress.startStep == Checking <==>
        && !(HasSelfUpdateFile(s) && c.selfUpdateData.None?)
        && !(HasSelfUpdateFile(s) && t.handoff.selfUpdateFromRC1)
        && c.clientFileOpens
        && !s.modes.isAutoUpdateMode && !t.handoff.selfUpdating && !t.handoff.continuingUpdate
        && !s.modes.uninstalling
    ensures Launched(commands, env, c).state.progress.startStep != Checking ==>
      Launched(commands, env, c).state.progress.startStep == Nothing
  {
    var s := Configured(commands, env);
    FlagsOfFreshWindow(commands, env);
    assert s.progress.startStep == Nothing;
    DispatchFollowsOutcome(s, env, c);
    assert Launched(commands, env, c).state == Dispatched(s, env, c).state;
  }

  /** Outside the RC1 shim, which never opens it, a client data file that
      fails to open shows the Error frame with the client-file error and
      plans no first step. */
  lemma ClientLoadFailureShowsError(commands: Arguments, env: Environment, c: Collaborators)
    requires !c.clientFileOpens
    requires HasSelfUpdateFile(Configured(commands, env)) ==>
      !(c.selfUpdateData.Some? && c.selfUpdateData.value.selfUpdateFromRC1)
    ensures var r := Launched(commands, env, c);
      && ShowFrame(Error) in r.events
      && r.state.progress.error == Some(ClientFileFailed)
      && r.state.progress.startStep == Nothing
  {
    DispatchFollowsOutcome(Configured(commands, env), env, c);
  }

  /** The "elevated as a non-admin" error needs a self-update data file that
      asked for elevation while the update still needs it: a launch without
      `supdf` never shows it. When it is shown, the elevation flag stays set. */
  lemma AdminErrorNeedsElevatedRelaunch(commands: Arguments, env: Environment, c: Collaborators)
    ensures LaunchOutcome(commands, env, c) == ShowsError(AdminError) ==>
      && "supdf" in commands
      && c.selfUpdateData.Some? && c.selfUpdateData.value.needElevation
      && c.needElevationToUpdate
      && Launched(commands, env, c).state.handoff.needElevation
      && Launched(commands, env, c).state.progress.error == Some(AdminError)
  {
    DispatchFollowsOutcome(Configured(commands, env), env, c);
  }

  /** The first show of a launched window: the Uninstall frame for an
      uninstall, else the relaunch of an RC1 self-update whose admin check
      passed, else the Checking step when it was planned, else nothing. */
  lemma FirstShowAfterLaunch(commands: Arguments, env: Environment, c: Collaborators, value: bool)
    ensures var r := Launched(commands, env, c); var o := LaunchOutcome(commands, env, c);
      var e := Shown(r.state, value).events;
      && (ShowFrame(Uninstall) in e <==> "supdf" !in commands && "uninstall" in commands)
      && (o == StartsChecking ==> e == [PrepareStepOn(Checking)])
      && (o == ReplacesClient ==> e == [StartSelfElevated])
      && (o == ShowsError(AdminError) ==> StartSelfElevated !in e)
  {
    var s := Configured(commands, env);
    DispatchFollowsOutcome(s, env, c);
    FlagsOfFreshWindow(commands, env);
  }

  /** As written, a failed copy of the RC1 client was attempted, cleared the
      elevation flag and shows the Error frame, yet still leaves the RC1 flag
      set, so the first show still starts the elevated relaunch (only a
      denied elevation clears the flag). */
  lemma FailedRC1CopyStillRelaunches(commands: Arguments, env: Environment, c: Collaborators, value: bool)
    requires "supdf" in commands && commands["supdf"] != ""
    requires c.selfUpdateData.Some? && c.selfUpdateData.value.selfUpdateFromRC1
    requires !(c.selfUpdateData.value.needElevation && c.needElevationToUpdate)
    requires !c.copySucceeds
    ensures var r := Launched(commands, env, c);
      && r.state.progress.error == Some(ClientFileFailed)
      && ShowFrame(Error) in r.events
      && CopyFile(Some(c.selfUpdateData.value.newClientLocation), Some(c.selfUpdateData.value.oldClientLocation)) in r.events
      && !r.state.handoff.needElevation
      && Shown(r.state, value).events == [StartSelfElevated]
  {
    var s := Configured(commands, env);
    DispatchFollowsOutcome(s, env, c);
    FlagsOfFreshWindow(commands, env);
  }

  /** A relaunched self-update or continued update whose server file fails
      to load stops before the elevation check, so a `needElevation` from the
      self-update data survives: the window closes without asking and keeps
      its temporary directory. */
  lemma FailedResumeKeepsElevationHandoff(commands: Arguments, env: Environment, c: Collaborators, directories: set<Path>)
    requires "supdf" in commands && commands["supdf"] != ""
    requires c.selfUpdateData.Some? && !c.selfUpdateData.value.selfUpdateFromRC1
    requires c.selfUpdateData.value.selfUpdating || c.selfUpdateData.value.continuingUpdate
    requires c.selfUpdateData.value.needElevation
    requires c.clientFileOpens && !c.serverFileLoads
    ensures var r := Launched(commands, env, c);
      && r.state.progress.error == Some(ServerError)
      && r.state.handoff.needElevation
      && !Closing(r.state).cancel
      && Closed(r.state, directories) == []
  {
    DispatchFollowsOutcome(Configured(commands, env), env, c);
    KeptTempDirectoryClosesWithoutPrompt(Launched(commands, env, c).state, directories);
  }

  /** A silent uninstall closes without asking, and removes its temporary
      directory unless it was started in auto-update mode. */
  lemma SilentUninstallClosesWithoutPrompt(commands: Arguments, env: Environment, c: Collaborators)
    requires "supdf" !in commands && "uninstall" in commands && "s" in commands
    ensures var r := Launched(commands, env, c);
      && !Closing(r.state).cancel
      && (DeletesTempDirectory(r.state) <==> "autoupdate" !in commands)
  {
    DispatchFollowsOutcome(Configured(commands, env), env, c);
    FlagsOfFreshWindow(commands, env);
  }

  /** An auto-update launch keeps its folder: closing neither asks nor
      removes the temporary directory, whatever directories exist. */
  lemma AutoUpdateKeepsTempDirectory(commands: Arguments, env: Environment, c: Collaborators, directories: set<Path>)
    requires "supdf" !in commands && "autoupdate" in commands
    ensures var r := Launched(commands, env, c);
      && !Closing(r.state).cancel
      && Closed(r.state, directories) == []
  {
    FlagsOfFreshWindow(commands, env);
    KeptTempDirectoryClosesWithoutPrompt(Launched(commands, env, c).state, directories);
  }
}

=== FILE: lifecycle.dfy ===
/** The window's life after the constructor: the one-shot work of its
    first show, and the two guards of closing — whether the user is asked
    before the window closes, and whether the temporary directory is
    removed once it has closed. */
module Lifecycle {
  import opened Text
  import opened Model

  /** The work the first show starts, by priority: the Uninstall frame, the
      relaunch that finishes an RC1 self-update, or the prepared first step. */
  function FirstShowEvents(s: FormState): (e: seq<Event>)
    ensures |e| <= 1
    ensures ShowFrame(Uninstall) in e <==> s.modes.uninstalling
    ensures StartSelfElevated in e <==> !s.modes.uninstalling && s.handoff.selfUpdateFromRC1
    ensures (exists step :: PrepareStepOn(step) in e) <==>
      !s.modes.uninstalling && !s.handoff.selfUpdateFromRC1 && s.progress.startStep != Nothing
    ensures forall step :: PrepareStepOn(step) in e ==> step == s.progress.startStep
  {
    if s.modes.uninstalling then [ShowFrame(Uninstall)]
    else if s.handoff.selfUpdateFromRC1 then [StartSelfElevated]
    else if s.progress.startStep != Nothing then [PrepareStepOn(s.progress.startStep)]
    else []
  }

  /** A request to show (`value`) or hide the window. The first request,
      while `_isApplicationRun` is still set, clears it, keeps the window
      hidden when it was asked to start hidden, and starts the first-show
      work; every later one only sets the visibility. */
  function Shown(s: FormState, value: bool): (r: Step)
    ensures !r.state.progress.isApplicationRun
    ensures r.state.progress.visible == (value && !(s.progress.isApplicationRun && s.modes.startFormHidden))
    ensures r.events == (if s.progress.isApplicationRun then FirstShowEvents(s) else [])
    ensures r.state.paths == s.paths && r.state.modes == s.modes && r.state.handoff == s.handoff
    ensures r.state.progress.(isApplicationRun := s.progress.isApplicationRun, visible := s.progress.visible) == s.progress
  {
    if s.progress.isApplicationRun then
      Step(s.(progress := s.progress.(isApplicationRun := false, visible := value && !s.modes.startFormHidden)),
           FirstShowEvents(s))
    else
      Step(s.(progress := s.progress.(visible := value)), [])
  }

  /** The first-show work runs once: after any request, the next one
      starts nothing and only sets the visibility. */
  lemma FirstShowRunsOnce(s: FormState, first: bool, second: bool)
    ensures var a := Shown(s, first); var b := Shown(a.state, second);
      && b.events == []
      && b.state.progress.visible == second
      && b.state == a.state.(progress := a.state.progress.(visible := second))
  {
    var a := Shown(s, first);
    assert !a.state.progress.isApplicationRun;
  }

  /** The window may close without asking: the update has been handed to
      another process or was never interactive, the user already
      cancelled, or the welcome or finish panel is on display. */
  predicate ClosesWithoutPrompt(s: FormState) {
    || s.handoff.needElevation || s.handoff.willSelfUpdate || s.handoff.selfUpdating
    || s.modes.isSilent || s.modes.isAutoUpdateMode
    || s.progress.isCancelled || s.progress.frameType == WelcomeFinish
  }

  /** A request to close: the decision whether closing is cancelled, and
      the events it causes. */
  datatype CloseRequest = CloseRequest(cancel: bool, events: seq<Event>)

  /** Closing is cancelled, and the user asked whether to cancel the
      update, exactly when the window may not close without asking. */
  function Closing(s: FormState): (r: CloseRequest)
    ensures r.cancel <==> !ClosesWithoutPrompt(s)
    ensures CancelUpdate in r.events <==> r.cancel
    ensures |r.events| <= 1
  {
    if ClosesWithoutPrompt(s) then CloseRequest(false, []) else CloseRequest(true, [CancelUpdate])
  }

  /** The temporary directory is to be removed: the update is neither
      handed to another process nor kept for a later automatic run. */
  predicate DeletesTempDirectory(s: FormState) {
    !(s.handoff.needElevation || s.handoff.willSelfUpdate || s.handoff.selfUpdating || s.modes.isAutoUpdateMode)
  }

  /** After the window closed, given the directories that exist: remove the
      temporary directory when it is to be removed and exists (a failure to
      remove it is ignored, so it is the attempt that is recorded). */
  function Closed(s: FormState, directories: set<Path>): (e: seq<Event>)
    ensures |e| <= 1
    ensures forall dir :: DeleteDirectory(dir) in e <==>
      DeletesTempDirectory(s) && s.paths.tempDirectory == Some(dir) && dir in directories
  {
    if DeletesTempDirectory(s) && s.paths.tempDirectory.Some? && s.paths.tempDirectory.value in directories
    then [DeleteDirectory(s.paths.tempDirectory.value)]
    else []
  }

  /** A window whose temporary directory is kept for another process or a
      later run never asks before closing; equivalently, a window that asks
      is one whose temporary directory is removed on close. */
  lemma KeptTempDirectoryClosesWithoutPrompt(s: FormState, directories: set<Path>)
    ensures !DeletesTempDirectory(s) ==> !Closing(s).cancel && Closed(s, directories) == []
    ensures Closing(s).cancel ==> DeletesTempDirectory(s)
  {
    if !DeletesTempDirectory(s) {
      assert ClosesWithoutPrompt(s);
    }
  }
}

=== FILE: model.dfy ===
/** The values the updater window works with: the command-line flags, the
    state of the window's fields, the events its side effects leave behind,
    and the answers of the file system and of the collaborators that live
    in other parts of the `frmMain` partial class. */
module Model {
  import opened Text

  datatype Option<+T> = None | Some(value: T)

  /** Flag name to value; a flag that is absent is not a key
      (`commands[flag] != null` is `flag in commands`). */
  type Arguments = map<string, string>

  /** The format variant of the client data file. */
  datatype ClientFileType = PreRC2 | RC2 | Final

  /** The first step the updater takes. Only `Nothing` and `Checking` are
      chosen by this window's start-up logic. */
  datatype UpdateStepOn = Nothing | Checking

  /** The frames the start-up and close logic ask to show. */
  datatype Frame = Uninstall | Error

  /** The kind of panel on display, as far as the close guard asks about it. */
  datatype FrameType = WelcomeFinish | OtherFrameType

  /** The user-facing error set before the Error frame is shown. */
  datatype ErrorKind =
    | ClientFileFailed       // "Client file failed to load. ..."
    | AutoUpdateStateFailed  // "Failed to load the AutoUpdate State file."
    | ServerError            // the localized server error
    | AdminError             // the localized "elevated as a non-admin" error

  /** A side effect the window causes, in the order it causes them. */
  datatype Event =
    | SetupAutoupdateMode
    | CreateDirectory(dir: Path)
    | LoadSelfUpdateData(file: Path)
    | CopyFile(source: Option<Path>, target: Option<Path>)
    | OpenObsoleteClientFile(clientLoc: Option<Path>)
    | OpenClientFile(clientLoc: Option<Path>)
    | LoadAutoUpdateData
    | LoadClientServerFile
    | LoadServerFile
    | ShowFrame(frame: Frame)
    | DownloadUpdate
    | PrepareStepOn(step: UpdateStepOn)
    | StartSelfElevated
    | CancelUpdate
    | DeleteDirectory(dir: Path)

  /** What the file system and the process report while the flags are read. */
  datatype Environment = Environment(
    files: set<Path>,         // the paths File.Exists accepts
    directories: set<Path>,   // the paths Directory.Exists accepts
    appBaseDirectory: Path,   // the directory of the executable
    tempPath: Path,           // the user's temporary directory
    timeStamp: string,        // the clock, as "ddMMssfff"
    appDataDirectory: Path)   // the roaming application-data folder

  /** The fields that loading the self-update data file assigns. */
  datatype SelfUpdateData = SelfUpdateData(
    clientFileLoc: Option<Path>,
    clientFileType: ClientFileType,
    baseDirectory: Option<Path>,
    tempDirectory: Option<Path>,
    selfUpdating: bool,
    continuingUpdate: bool,
    needElevation: bool,
    selfUpdateFromRC1: bool,
    newClientLocation: Path,
    oldClientLocation: Path)

  /** The outcomes of the calls into code outside this file. A `false`
      (or `None`) outcome is the call throwing. */
  datatype Collaborators = Collaborators(
    selfUpdateData: Option<SelfUpdateData>,  // LoadSelfUpdateData
    copySucceeds: bool,                      // File.Copy of the RC1 client
    clientFileOpens: bool,                   // OpenObsoleteClientFile / OpenClientFile
    productName: string,                     // the product name read from the client file
    autoUpdateDirectoryCreated: bool,        // Directory.CreateDirectory of the auto-update folder
    autoUpdateStateLoads: bool,              // LoadAutoUpdateData
    serverFileLoads: bool,                   // LoadClientServerFile / LoadServerFile
    needElevationToUpdate: bool)             // NeedElevationToUpdate()

  /** The file locations the window works with. */
  datatype Paths = Paths(
    selfUpdateFileLoc: Option<Path>,
    clientFileLoc: Option<Path>,
    clientFileType: ClientFileType,
    baseDirectory: Option<Path>,
    tempDirectory: Option<Path>,
    serverOverwrite: Option<string>)

  /** The operating-mode flags the command line turns on. */
  datatype Modes = Modes(
    isAutoUpdateMode: bool,
    startFormHidden: bool,
    quickCheck: bool,
    quickCheckNoErr: bool,
    uninstalling: bool,
    isSilent: bool)

  /** The self-update and elevation hand-off between two runs of the updater. */
  datatype Handoff = Handoff(
    selfUpdating: bool,
    continuingUpdate: bool,
    needElevation: bool,
    willSelfUpdate: bool,
    selfUpdateFromRC1: bool,
    newClientLocation: Option<Path>,
    oldClientLocation: Option<Path>)

  /** Where the window stands: the error to show, the first step, the
      one-shot flag of the first show, and what the close guard asks about. */
  datatype Progress = Progress(
    error: Option<ErrorKind>,
    startStep: UpdateStepOn,
    isApplicationRun: bool,
    visible: bool,
    isCancelled: bool,
    frameType: FrameType)

  /** The fields of the window that its launch and close logic read or
      write, grouped as above. */
  datatype FormState = FormState(
    paths: Paths,
    modes: Modes,
    handoff: Handoff,
    progress: Progress)

  /** What one operation of the window leaves behind: its fields afterwards
      and the events it caused, in order. */
  datatype Step = Step(state: FormState, events: seq<Event>)

  /** `e` happens, then `r`. */
  function Then(e: Event, r: Step): Step {
    Step(r.state, [e] + r.events)
  }

  /** The fields as a new window has them: every reference null, every flag
      false except `_isApplicationRun`, the first step `Nothing`. */
  function Initial(): FormState {
    FormState(
      Paths(None, None, PreRC2, None, None, None),
      Modes(false, false, false, false, false, false),
      Handoff(false, false, false, false, false, None, None),
      Progress(None, Nothing, true, false, false, OtherFrameType))
  }
}

=== FILE: startup.dfy ===
/** The start-up dispatch of the updater window's constructor: load the
    self-update data (and, for a self-update from RC1, replace the client
    and stop), load the client data file, then resume an auto-update, a
    self-update, a continued update, or plan the Checking step. */
module Startup {
  import opened Text
  import opened Model

  /** `!string.IsNullOrEmpty(selfUpdateFileLoc)`. */
  predicate HasSelfUpdateFile(s: FormState) {
    s.paths.selfUpdateFileLoc.Some? && s.paths.selfUpdateFileLoc.value != ""
  }

  /** The fields once the self-update data file has been read into them. */
  function WithSelfUpdateData(s: FormState, d: SelfUpdateData): FormState {
    FormState(
      Paths(s.paths.selfUpdateFileLoc, d.clientFileLoc, d.clientFileType, d.baseDirectory, d.tempDirectory,
            s.paths.serverOverwrite),
      s.modes,
      Handoff(d.selfUpdating, d.continuingUpdate, d.needElevation, s.handoff.willSelfUpdate, d.selfUpdateFromRC1,
              Some(d.newClientLocation), Some(d.oldClientLocation)),
      s.progress)
  }

  /** The fields as the dispatch sees them after the self-update data, if
      any, has been read. */
  function Loaded(s: FormState, c: Collaborators): FormState {
    if HasSelfUpdateFile(s) && c.selfUpdateData.Some? then WithSelfUpdateData(s, c.selfUpdateData.value) else s
  }

  /** Set the error and show the Error frame. */
  function Failed(s: FormState, kind: ErrorKind): Step {
    Step(s.(progress := s.progress.(error := Some(kind))), [ShowFrame(Error)])
  }

  /** The process was meant to be elevated (it was relaunched for that) and
      the update still needs rights it does not have. */
  predicate ElevationDenied(s: FormState, c: Collaborators) {
    s.handoff.needElevation && c.needElevationToUpdate
  }

  /** The legacy RC1 shim: refuse if elevation was denied, else copy the new
      client over the old one. Nothing else runs afterwards. */
  function ReplaceRC1Client(s: FormState, c: Collaborators): Step {
    if ElevationDenied(s, c) then
      Failed(s.(handoff := s.handoff.(selfUpdateFromRC1 := false)), AdminError)
    else
      var copied := s.(handoff := s.handoff.(needElevation := false));
      Then(CopyFile(s.handoff.newClientLocation, s.handoff.oldClientLocation),
        if c.copySucceeds then Step(copied, []) else Failed(copied, ClientFileFailed))
  }

  /** The self-updating and continuing paths: load the server file, then
      refuse if elevation was denied, else start the download. */
  function ContinueUpdate(s: FormState, c: Collaborators, load: Event): Step {
    Then(load,
      if !c.serverFileLoads then Failed(s, ServerError)
      else if ElevationDenied(s, c) then Failed(s, AdminError)
      else Step(s.(handoff := s.handoff.(needElevation := false)), [DownloadUpdate]))
  }

  /** The auto-update folder of the product, under the application-data folder. */
  function AutoUpdateDirectory(env: Environment, c: Collaborators): Path {
    Combine(env.appDataDirectory, c.productName)
  }

  /** What follows a successful load of the client data file. */
  function ChooseStartPath(s: FormState, env: Environment, c: Collaborators): Step {
    if s.modes.isAutoUpdateMode then
      var dir := AutoUpdateDirectory(env, c);
      var creating := s.(paths := s.paths.(tempDirectory := Some(dir)));
      Then(CreateDirectory(dir),
        if !c.autoUpdateDirectoryCreated then Failed(creating, AutoUpdateStateFailed)
        else Then(LoadAutoUpdateData,
          if c.autoUpdateStateLoads then Step(creating, []) else Failed(creating, AutoUpdateStateFailed)))
    else if s.handoff.selfUpdating then ContinueUpdate(s, c, LoadClientServerFile)
    else if s.handoff.continuingUpdate then ContinueUpdate(s, c, LoadServerFile)
    else if !s.modes.uninstalling then Step(s.(progress := s.progress.(startStep := Checking)), [])
    else Step(s, [])
  }

  /** Opening the client data file with the reader of its format variant. */
  function OpenEvent(s: FormState): Event {
    if s.paths.clientFileType == PreRC2 then OpenObsoleteClientFile(s.paths.clientFileLoc)
    else OpenClientFile(s.paths.clientFileLoc)
  }

  /** Open the client data file, then start the path the fields ask for. */
  function OpenClient(s: FormState, env: Environment, c: Collaborators): Step {
    Then(OpenEvent(s),
      if !c.clientFileOpens then Failed(s, ClientFileFailed)
      else ChooseStartPath(s, env, c))
  }

  /** The one way a launch ends, as a decision table read top to bottom. */
  datatype Outcome =
    | ShowsError(kind: ErrorKind)  // the Error frame is shown
    | ReplacesClient               // the RC1 client was copied; the relaunch follows
    | ResumesAutoUpdate            // the auto-update state was loaded
    | Downloads                    // a self-update or continued update starts downloading
    | AwaitsUninstall              // nothing starts; the first show runs the uninstall
    | StartsChecking               // the first step is Checking

  /** The RC1 rows of the table. */
  function ReplaceOutcome(t: FormState, c: Collaborators): Outcome {
    if ElevationDenied(t, c) then ShowsError(AdminError)
    else if c.copySucceeds then ReplacesClient
    else ShowsError(ClientFileFailed)
  }

  /** The rows of the table once the client data file is to be opened. */
  function OpenOutcome(t: FormState, c: Collaborators): Outcome {
    if !c.clientFileOpens then ShowsError(ClientFileFailed)
    else if t.modes.isAutoUpdateMode then
      (if c.autoUpdateDirectoryCreated && c.autoUpdateStateLoads then ResumesAutoUpdate else ShowsError(AutoUpdateStateFailed))
    else if t.handoff.selfUpdating || t.handoff.continuingUpdate then
      (if !c.serverFileLoads then ShowsError(ServerError) else if ElevationDenied(t, c) then ShowsError(AdminError) else Downloads)
    else if t.modes.uninstalling then AwaitsUninstall
    else StartsChecking
  }

  /** The whole table: a self-update data file that cannot be read, then the
      RC1 rows, then the rows of the client data file. */
  function OutcomeOf(s: FormState, c: Collaborators): Outcome {
    if HasSelfUpdateFile(s) && c.selfUpdateData.None? then ShowsError(ClientFileFailed)
    else if HasSelfUpdateFile(s) && Loaded(s, c).handoff.selfUpdateFromRC1 then ReplaceOutcome(Loaded(s, c), c)
    else OpenOutcome(Loaded(s, c), c)
  }

  /** `r`, started from `s`, ends as `o` says: the Error frame is shown
      exactly on an error outcome and the error is that outcome's; the
      download starts exactly on `Downloads`; the first step becomes
      Checking exactly on `StartsChecking` and nothing else of the progress
      changes; the elevation flag is kept when elevation was denied and
      cleared on the paths that go ahead. */
  predicate EndsAs(s: FormState, r: Step, o: Outcome) {
    && (ShowFrame(Error) in r.events <==> o.ShowsError?)
    && r.state.progress.error == (if o.ShowsError? then Some(o.kind) else s.progress.error)
    && (DownloadUpdate in r.events <==> o == Downloads)
    && r.state.progress.startStep == (if o == StartsChecking then Checking else s.progress.startStep)
    && r.state.progress.isApplicationRun == s.progress.isApplicationRun
    && r.state.progress.visible == s.progress.visible
    && r.state.progress.isCancelled == s.progress.isCancelled
    && r.state.progress.frameType == s.progress.frameType
    && (o == ShowsError(AdminError) ==> r.state.handoff.needElevation)
    && (o == ReplacesClient || o == Downloads ==> !r.state.handoff.needElevation)
  }

  /** An event that neither shows the Error frame nor starts the download
      keeps how a step ends. */
  lemma ThenKeepsEnding(e: Event, s: FormState, r: Step, o: Outcome)
    requires e != ShowFrame(Error) && e != DownloadUpdate
    requires EndsAs(s, r, o)
    ensures EndsAs(s, Then(e, r), o)
  {
    assert Then(e, r).events == [e] + r.events;
  }

  /** The RC1 shim ends as the RC1 rows of the table say, and clears the
      RC1 flag only when it refuses a denied elevation. Unless it refuses,
      it clears the elevation flag and copies the new client over the old
      one, whether or not the copy succeeds. */
  lemma ReplaceRC1ClientEndsAs(t: FormState, c: Collaborators)
    ensures var r := ReplaceRC1Client(t, c);
      && EndsAs(t, r, ReplaceOutcome(t, c))
      && r.state.handoff.selfUpdateFromRC1 == (t.handoff.selfUpdateFromRC1 && !ElevationDenied(t, c))
      && (CopyFile(t.handoff.newClientLocation, t.handoff.oldClientLocation) in r.events <==> !ElevationDenied(t, c))
      && r.state.handoff.needElevation == ElevationDenied(t, c)
      && r.state.handoff.(needElevation := t.handoff.needElevation, selfUpdateFromRC1 := t.handoff.selfUpdateFromRC1) == t.handoff
      && r.state.paths == t.paths && r.state.modes == t.modes
      && (forall e | e in r.events :: e.CopyFile? || e == ShowFrame(Error))
  {
    if !ElevationDenied(t, c) {
      var copied := t.(handoff := t.handoff.(needElevation := false));
      var tail := if c.copySucceeds then Step(copied, []) else Failed(copied, ClientFileFailed);
      assert EndsAs(t, tail, ReplaceOutcome(t, c));
      ThenKeepsEnding(CopyFile(t.handoff.newClientLocation, t.handoff.oldClientLocation), t, tail, ReplaceOutcome(t, c));
    }
  }

  /** The self-updating and continuing paths load their server file first,
      end in the server error, the admin error or the download, and touch
      neither the paths nor the RC1 flag. */
  lemma ContinueUpdateEndsAs(t: FormState, c: Collaborators, load: Event)
    requires load == LoadClientServerFile || load == LoadServerFile
    ensures var r := ContinueUpdate(t, c, load);
      && EndsAs(t, r, if !c.serverFileLoads then ShowsError(ServerError) else if ElevationDenied(t, c) then ShowsError(AdminError) else Downloads)
      && r.state.handoff.(needElevation := t.handoff.needElevation) == t.handoff
      && r.state.handoff.needElevation == (t.handoff.needElevation && !(c.serverFileLoads && !ElevationDenied(t, c)))
      && r.state.paths == t.paths && r.state.modes == t.modes
      && |r.events| >= 1 && r.events[0] == load
      && (forall e | e in r.events[1..] :: e == ShowFrame(Error) || e == DownloadUpdate)
  {
    var o := if !c.serverFileLoads then ShowsError(ServerError) else if ElevationDenied(t, c) then ShowsError(AdminError) else Downloads;
    var tail :=
      if !c.serverFileLoads then Failed(t, ServerError)
      else if ElevationDenied(t, c) then Failed(t, AdminError)
      else Step(t.(handoff := t.handoff.(needElevation := false)), [DownloadUpdate]);
    assert EndsAs(t, tail, o);
    ThenKeepsEnding(load, t, tail, o);
  }

  /** The events a start path can cause. */
  predicate StartPathEvent(e: Event) {
    e.CreateDirectory? || e == LoadAutoUpdateData || e == LoadClientServerFile || e == LoadServerFile
    || e == ShowFrame(Error) || e == DownloadUpdate
  }

  /** Once the client data file has loaded, the start path ends as the
      table says; auto-update works in the product's auto-update folder. */
  lemma ChooseStartPathEndsAs(t: FormState, env: Environment, c: Collaborators)
    requires c.clientFileOpens
    ensures var r := ChooseStartPath(t, env, c);
      && EndsAs(t, r, OpenOutcome(t, c))
      && r.state.handoff.(needElevation := t.handoff.needElevation) == t.handoff
      && r.state.handoff.needElevation == (t.handoff.needElevation && OpenOutcome(t, c) != Downloads)
      && r.state.paths ==
           (if t.modes.isAutoUpdateMode then t.paths.(tempDirectory := Some(AutoUpdateDirectory(env, c))) else t.paths)
      && r.state.modes == t.modes
  {
    var o := OpenOutcome(t, c);
    if t.modes.isAutoUpdateMode {
      var creating := t.(paths := t.paths.(tempDirectory := Some(AutoUpdateDirectory(env, c))));
      if c.autoUpdateDirectoryCreated {
        var tail := if c.autoUpdateStateLoads then Step(creating, []) else Failed(creating, AutoUpdateStateFailed);
        assert EndsAs(t, tail, o);
        ThenKeepsEnding(LoadAutoUpdateData, t, tail, o);
        ThenKeepsEnding(CreateDirectory(AutoUpdateDirectory(env, c)), t, Then(LoadAutoUpdateData, tail), o);
      } else {
        ThenKeepsEnding(CreateDirectory(AutoUpdateDirectory(env, c)), t, Failed(creating, AutoUpdateStateFailed), o);
      }
    } else if t.handoff.selfUpdating {
      ContinueUpdateEndsAs(t, c, LoadClientServerFile);
    } else if t.handoff.continuingUpdate {
      ContinueUpdateEndsAs(t, c, LoadServerFile);
    }
  }

  /** The start path loads what its path needs: auto-update creates its
      folder and then loads its state, and is tried before the self-updating
      and continuing paths, each of which loads its own server file. */
  lemma ChooseStartPathLoads(t: FormState, env: Environment, c: Collaborators)
    ensures var r := ChooseStartPath(t, env, c);
      && (CreateDirectory(AutoUpdateDirectory(env, c)) in r.events <==> t.modes.isAutoUpdateMode)
      && (LoadAutoUpdateData in r.events <==> t.modes.isAutoUpdateMode && c.autoUpdateDirectoryCreated)
      && (LoadClientServerFile in r.events <==> !t.modes.isAutoUpdateMode && t.handoff.selfUpdating)
      && (LoadServerFile in r.events <==>
            !t.modes.isAutoUpdateMode && !t.handoff.selfUpdating && t.handoff.continuingUpdate)
      && (forall e | e in r.events :: StartPathEvent(e))
  {
    if !t.modes.isAutoUpdateMode && (t.handoff.selfUpdating || t.handoff.continuingUpdate) {
      var load := if t.handoff.selfUpdating then LoadClientServerFile else LoadServerFile;
      var tail :=
        if !c.serverFileLoads then [ShowFrame(Error)]
        else if ElevationDenied(t, c) then [ShowFrame(Error)]
        else [DownloadUpdate];
      assert ChooseStartPath(t, env, c).events == [load] + tail;
    }
  }

  /** Opening the client data file and what follows end as the table says;
      the file is opened first, once, with the reader of its variant, and the
      start path runs only when it opened. */
  lemma OpenClientEndsAs(t: FormState, env: Environment, c: Collaborators)
    ensures var r := OpenClient(t, env, c);
      && EndsAs(t, r, OpenOutcome(t, c))
      && r.state.handoff.(needElevation := t.handoff.needElevation) == t.handoff
      && r.state.handoff.needElevation == (t.handoff.needElevation && OpenOutcome(t, c) != Downloads)
      && r.state.paths ==
           (if OpenOutcome(t, c) in {ResumesAutoUpdate, ShowsError(AutoUpdateStateFailed)}
            then t.paths.(tempDirectory := Some(AutoUpdateDirectory(env, c))) else t.paths)
      && r.state.modes == t.modes
      && (!c.clientFileOpens ==> r.state == t.(progress := t.progress.(error := Some(ClientFileFailed))) && |r.events| == 2)
      && |r.events| >= 1
      && r.events[0] == (if t.paths.clientFileType == PreRC2 then OpenObsoleteClientFile(t.paths.clientFileLoc)
                         else OpenClientFile(t.paths.clientFileLoc))
      && (forall e | e in r.events[1..] :: StartPathEvent(e))
  {
    var openEvent := OpenEvent(t);
    if c.clientFileOpens {
      ChooseStartPathEndsAs(t, env, c);
      ChooseStartPathLoads(t, env, c);
      ThenKeepsEnding(openEvent, t, ChooseStartPath(t, env, c), OpenOutcome(t, c));
    } else {
      ThenKeepsEnding(openEvent, t, Failed(t, ClientFileFailed), OpenOutcome(t, c));
    }
  }

  /** After the open, the start path's loads happen exactly when the client
      data file opened and that start path is the one taken. */
  lemma OpenClientLoads(t: FormState, env: Environment, c: Collaborators)
    ensures var r := OpenClient(t, env, c);
      && (CreateDirectory(AutoUpdateDirectory(env, c)) in r.events <==> c.clientFileOpens && t.modes.isAutoUpdateMode)
      && (LoadAutoUpdateData in r.events <==>
            c.clientFileOpens && t.modes.isAutoUpdateMode && c.autoUpdateDirectoryCreated)
      && (LoadClientServerFile in r.events <==> c.clientFileOpens && !t.modes.isAutoUpdateMode && t.handoff.selfUpdating)
      && (LoadServerFile in r.events <==>
            c.clientFileOpens && !t.modes.isAutoUpdateMode && !t.handoff.selfUpdating && t.handoff.continuingUpdate)
  {
    if c.clientFileOpens {
      ChooseStartPathLoads(t, env, c);
      assert OpenClient(t, env, c).events == [OpenEvent(t)] + ChooseStartPath(t, env, c).events;
    }
  }

  /** The constructor's dispatch after the flags are read: the fields it
      leaves and the events it causes. The operating-mode flags stay as the
      command line set them. */
  function Dispatched(s: FormState, env: Environment, c: Collaborators): (r: Step)
    ensures r.state.modes == s.modes
  {
    if HasSelfUpdateFile(s) then
      Then(LoadSelfUpdateData(s.paths.selfUpdateFileLoc.value),
        match c.selfUpdateData
        case None => Failed(s, ClientFileFailed)
        case Some(d) =>
          if d.selfUpdateFromRC1 then ReplaceRC1Client(WithSelfUpdateData(s, d), c)
          else OpenClient(WithSelfUpdateData(s, d), env, c))
    else OpenClient(s, env, c)
  }

  /** Every launch has exactly one outcome, and it ends as that outcome
      says; the RC1 flag survives only a copy that was not refused, and a
      resumed auto-update works in the product's auto-update folder. */
  lemma DispatchFollowsOutcome(s: FormState, env: Environment, c: Collaborators)
    ensures var r := Dispatched(s, env, c); var o := OutcomeOf(s, c);
      && EndsAs(s, r, o)
      && r.state.handoff.selfUpdateFromRC1 ==
           (if HasSelfUpdateFile(s) && c.selfUpdateData.Some?
            then c.selfUpdateData.value.selfUpdateFromRC1 && o != ShowsError(AdminError)
            else s.handoff.selfUpdateFromRC1)
      && (o == ResumesAutoUpdate ==> r.state.paths.tempDirectory == Some(AutoUpdateDirectory(env, c)))
      && (var t := Loaded(s, c);
         && r.state.handoff.(needElevation := t.handoff.needElevation, selfUpdateFromRC1 := t.handoff.selfUpdateFromRC1) == t.handoff
         && r.state.handoff.needElevation ==
              (t.handoff.needElevation && o != Downloads
               && !(HasSelfUpdateFile(s) && c.selfUpdateData.Some? && t.handoff.selfUpdateFromRC1 && !ElevationDenied(t, c)))
         && r.state.paths ==
              (if o in {ResumesAutoUpdate, ShowsError(AutoUpdateStateFailed)}
               then t.paths.(tempDirectory := Some(AutoUpdateDirectory(env, c))) else t.paths))
      && (HasSelfUpdateFile(s) && c.selfUpdateData.Some? && c.selfUpdateData.value.selfUpdateFromRC1 ==>
            var d := c.selfUpdateData.value;
            && (CopyFile(Some(d.newClientLocation), Some(d.oldClientLocation)) in r.events <==>
                  !(d.needElevation && c.needElevationToUpdate))
            && (!(d.needElevation && c.needElevationToUpdate) ==> !r.state.handoff.needElevation))
  {
    var o := OutcomeOf(s, c);
    if HasSelfUpdateFile(s) {
      var read := LoadSelfUpdateData(s.paths.selfUpdateFileLoc.value);
      match c.selfUpdateData
      case None =>
        ThenKeepsEnding(read, s, Failed(s, ClientFileFailed), o);
      case Some(d) =>
        var t := WithSelfUpdateData(s, d);
        if d.selfUpdateFromRC1 {
          ReplaceRC1ClientEndsAs(t, c);
          ThenKeepsEnding(read, s, ReplaceRC1Client(t, c), o);
        } else {
          OpenClientEndsAs(t, env, c);
          ThenKeepsEnding(read, s, OpenClient(t, env, c), o);
        }
    } else {
      OpenClientEndsAs(s, env, c);
    }
  }

  /** Opening the client data file and what follows neither read the
      self-update data nor copy a file. */
  lemma OpenClientNeitherReadsNorCopies(t: FormState, env: Environment, c: Collaborators)
    ensures forall e | e in OpenClient(t, env, c).events :: !e.CopyFile? && !e.LoadSelfUpdateData?
  {
    OpenClientEndsAs(t, env, c);
    var r := OpenClient(t, env, c).events;
    assert r == [OpenEvent(t)] + r[1..];
  }

  /** The self-update data is read first and exactly when a self-update
      data file is named; the RC1 copy is made exactly when that data is
      from RC1 and the copy is not refused. */
  lemma DispatchReadsSelfUpdateData(s: FormState, env: Environment, c: Collaborators)
    ensures var r := Dispatched(s, env, c); var t := Loaded(s, c);
      && (HasSelfUpdateFile(s) ==> |r.events| >= 1 && r.events[0] == LoadSelfUpdateData(s.paths.selfUpdateFileLoc.value))
      && ((exists e | e in r.events :: e.LoadSelfUpdateData?) <==> HasSelfUpdateFile(s))
      && ((exists e | e in r.events :: e.CopyFile?) <==>
            HasSelfUpdateFile(s) && c.selfUpdateData.Some? && t.handoff.selfUpdateFromRC1 && !ElevationDenied(t, c))
  {
    if HasSelfUpdateFile(s) {
      var read := LoadSelfUpdateData(s.paths.selfUpdateFileLoc.value);
      match c.selfUpdateData
      case None =>
        assert Dispatched(s, env, c).events == [read, ShowFrame(Error)];
      case Some(d) =>
        var t := WithSelfUpdateData(s, d);
        if d.selfUpdateFromRC1 {
          ReplaceRC1ClientEndsAs(t, c);
          var tail := ReplaceRC1Client(t, c).events;
          assert Dispatched(s, env, c).events == [read] + tail;
          if !ElevationDenied(t, c) {
            assert CopyFile(t.handoff.newClientLocation, t.handoff.oldClientLocation) in tail;
          }
        } else {
          OpenClientNeitherReadsNorCopies(t, env, c);
          assert Dispatched(s, env, c).events == [read] + OpenClient(t, env, c).events;
        }
    } else {
      OpenClientNeitherReadsNorCopies(s, env, c);
    }
  }

  /** The client data file is opened, with the reader of its variant,
      exactly when no self-update data file was named, or it was read and
      is not from RC1. */
  lemma DispatchOpensClientFile(s: FormState, env: Environment, c: Collaborators)
    ensures var r := Dispatched(s, env, c); var t := Loaded(s, c);
      var opens := !HasSelfUpdateFile(s) || (c.selfUpdateData.Some? && !t.handoff.selfUpdateFromRC1);
      && ((exists e | e in r.events :: e.OpenClientFile? || e.OpenObsoleteClientFile?) <==> opens)
      && (opens ==> OpenEvent(t) in r.events)
  {
    if HasSelfUpdateFile(s) {
      var read := LoadSelfUpdateData(s.paths.selfUpdateFileLoc.value);
      match c.selfUpdateData
      case None =>
        assert Dispatched(s, env, c).events == [read, ShowFrame(Error)];
      case Some(d) =>
        var t := WithSelfUpdateData(s, d);
        if d.selfUpdateFromRC1 {
          ReplaceRC1ClientEndsAs(t, c);
          assert Dispatched(s, env, c).events == [read] + ReplaceRC1Client(t, c).events;
        } else {
          OpenClientEndsAs(t, env, c);
          var tail := OpenClient(t, env, c).events;
          assert Dispatched(s, env, c).events == [read] + tail;
          assert tail == [OpenEvent(t)] + tail[1..];
        }
    } else {
      OpenClientEndsAs(s, env, c);
      var r := OpenClient(s, env, c).events;
      assert r == [OpenEvent(s)] + r[1..];
    }
  }

  /** Which loads of a start path the dispatch calls: each happens exactly
      when the client data file was opened, opened, and that start path is
      the one taken. */
  lemma DispatchLoads(s: FormState, env: Environment, c: Collaborators)
    ensures var r := Dispatched(s, env, c); var t := Loaded(s, c);
      var starts := (!HasSelfUpdateFile(s) || (c.selfUpdateData.Some? && !t.handoff.selfUpdateFromRC1)) && c.clientFileOpens;
      && (CreateDirectory(AutoUpdateDirectory(env, c)) in r.events <==> starts && t.modes.isAutoUpdateMode)
      && (LoadAutoUpdateData in r.events <==> starts && t.modes.isAutoUpdateMode && c.autoUpdateDirectoryCreated)
      && (LoadClientServerFile in r.events <==> starts && !t.modes.isAutoUpdateMode && t.handoff.selfUpdating)
      && (LoadServerFile in r.events <==>
            starts && !t.modes.isAutoUpdateMode && !t.handoff.selfUpdating && t.handoff.continuingUpdate)
  {
    if HasSelfUpdateFile(s) {
      var read := LoadSelfUpdateData(s.paths.selfUpdateFileLoc.value);
      match c.selfUpdateData
      case None =>
        assert Dispatched(s, env, c).events == [read, ShowFrame(Error)];
      case Some(d) =>
        var t := WithSelfUpdateData(s, d);
        if d.selfUpdateFromRC1 {
          ReplaceRC1ClientEndsAs(t, c);
          assert Dispatched(s, env, c).events == [read] + ReplaceRC1Client(t, c).events;
        } else {
          OpenClientLoads(t, env, c);
          assert Dispatched(s, env, c).events == [read] + OpenClient(t, env, c).events;
        }
    } else {
      OpenClientLoads(s, env, c);
    }
  }
}

=== FILE: text.dfy ===
/** Strings and paths as the updater window uses them: suffix tests that
    ignore letter case, and the .NET `Path.Combine` of a directory with a
    relative file name. */
module Text {

  type Path = string

  /** The Windows directory separator, the alternative separator and the
      volume separator: `Path.Combine` adds no separator after these. */
  predicate IsSeparator(c: char) {
    c == '\\' || c == '/' || c == ':'
  }

  /** Lower-casing of one character, for the ASCII letters. */
  function LowerChar(c: char): (l: char)
    ensures !('A' <= l <= 'Z')
    ensures ('a' <= l <= 'z') <==> ('a' <= c <= 'z' || 'A' <= c <= 'Z')
    ensures !('A' <= c <= 'Z') ==> l == c
  {
    if 'A' <= c <= 'Z' then (c as int + 32) as char else c
  }

  /** The string with its ASCII letters lower-cased. */
  function ToLower(s: string): (r: string)
    ensures |r| == |s|
    ensures forall i :: 0 <= i < |r| ==> !('A' <= r[i] <= 'Z')
    ensures forall i :: 0 <= i < |s| && !('A' <= s[i] <= 'Z') ==> r[i] == s[i]
  {
    seq(|s|, i requires 0 <= i < |s| => LowerChar(s[i]))
  }

  /** `s.EndsWith(suffix, StringComparison.InvariantCultureIgnoreCase)`. */
  predicate EndsWithIgnoreCase(s: string, suffix: string) {
    |suffix| <= |s| && ToLower(s[|s| - |suffix|..]) == ToLower(suffix)
  }

  /** What `Path.Combine` puts between a directory and a file name: a
      backslash, unless the directory is empty or already ends in a separator. */
  function Joint(dir: Path): string {
    if dir == [] || IsSeparator(dir[|dir| - 1]) then "" else "\\"
  }

  /** Lower-casing twice is lower-casing once. */
  lemma ToLowerIdem(s: string)
    ensures ToLower(ToLower(s)) == ToLower(s)
  {
  }

  /** The suffix test ignores the letter case of the tested string: folding
      it first does not change the answer. */
  lemma CaseInsensitive(s: string, t: string)
    ensures EndsWithIgnoreCase(ToLower(s), t) <==> EndsWithIgnoreCase(s, t)
  {
    if |t| <= |s| {
      assert ToLower(s)[|s| - |t|..] == ToLower(s[|s| - |t|..]);
      ToLowerIdem(s[|s| - |t|..]);
    }
  }

  /** The suffix test ignores the letter case of the suffix too. */
  lemma CaseInsensitiveSuffix(s: string, t: string)
    ensures EndsWithIgnoreCase(s, ToLower(t)) <==> EndsWithIgnoreCase(s, t)
  {
    ToLowerIdem(t);
  }

  /** `Path.Combine(dir, name)` for a relative `name`: an empty name gives
      the directory unchanged. */
  function Combine(dir: Path, name: Path): Path {
    if name == [] then dir else dir + Joint(dir) + name
  }

  /** `s.Substring(0, s.Length - 1)`: the string without its last character. */
  function DropLast(s: string): string
    requires s != []
  {
    s[..|s| - 1]
  }

  /** Dropping the last character of a combined path drops it from the file name. */
  lemma CombineDropLast(dir: Path, name: Path)
    requires |name| >= 2
    ensures DropLast(Combine(dir, name)) == Combine(dir, DropLast(name))
  {
    var front := dir + Joint(dir);
    assert Combine(dir, name) == front + name;
    assert (front + name)[..|front + name| - 1] == front + name[..|name| - 1];
  }

  /** The last `k` characters of `a + b` are those of `b` when `b` has `k` of them. */
  lemma SuffixOfConcat(a: string, b: string, k: nat)
    requires k <= |b|
    ensures (a + b)[|a + b| - k..] == b[|b| - k..]
  {
    var ab := a + b;
    forall j | 0 <= j < |b|
      ensures ab[|a| + j] == b[j]
    {
    }
  }

  /** Whether a combined path ends in a suffix no longer than the file name
      depends on the file name alone. */
  lemma EndsWithCombine(dir: Path, name: Path, suffix: string)
    requires |suffix| <= |name|
    ensures EndsWithIgnoreCase(Combine(dir, name), suffix) <==> EndsWithIgnoreCase(name, suffix)
  {
    if name != [] {
      SuffixOfConcat(dir + Joint(dir), name, |suffix|);
    }
  }
}
